=== FILE: README.md ===
# Account uniqueness core of AuthService, in Dafny

This project models the part of AuthService that keeps usernames unique:

- the accounts table with its primary key and unique username index (`AccountStore`);
- the repository operations `Add`, `UpdateAccount` and the two lookups;
- `AccountService`: `IsUserNameAvailable`, `IsAccountValid` and `CreateOrUpdate`;
- the two FluentValidation validators (`Validators`), with the .NET string
  semantics they depend on (`DotNetText`);
- the `Response<T>` envelope (`ResponseModel`);
- the two actions of `AccountController`.

Everything is a pure function of the table. The table is a map from
`AccountId` to `Username`. Its type, `AccountStore.Table`, admits only maps
whose usernames are pairwise distinct, which is the unique index. So every
write the model performs has been checked to keep usernames unique. A write
that would break the primary key or the index returns a `DbError`, and the
caller keeps the table it had. This matches `SaveChangesAsync`, which
commits everything or nothing. An exception thrown out of `CreateOrUpdate`
appears as a `Failure`; the controller never turns it into a `Response`.

Behaviours of the code that are easy to miss (the model follows the code):

- Renaming a stored account to an unclaimed username does not create a
  second row. `CreateOrUpdate` looks the account up by the NEW username,
  finds nobody, and calls `Add` with an id that is already stored. The
  primary key then rejects the insert (`AccountService.RenameTakesAddBranch`).
  So no request can ever change a stored account's username
  (`AccountController.ServeKeepsRows`).
- The `Update` branch is always a no-op. The record it finds already carries
  the submitted username. If that record belongs to another account, the
  call reports `Update` and returns the other account
  (`AccountService.ForeignHolderIsReturned`). Two racing claims on one
  username therefore end in one of two ways, depending on when the losing
  lookup runs. If it ran before the winner committed, the loser's insert hits
  the unique index (`AccountService.RaceLoserHitsUniqueIndex`). If it runs
  after the commit, the loser gets the winner's account back as "updated".
- FluentValidation runs every rule in a chain. So an empty username collects
  both the "required" and the "length" messages. `NotEmpty` also rejects a
  username made only of white space. `Length(6, 30)` counts UTF-16 code
  units, not characters.
- `HasMaxLength(100)` is declared but the SQLite provider does not enforce
  it. The model therefore proves it as an invariant of the request path:
  every stored username passed the 6–30 rule (`AccountController.ServeKeepsRows`).

## Model

| member | source | states |
|---|---|---|
| `DotNetText.Utf16Length` | AuthService.API/Validators/AccountRequestValidator.cs:13 | `string.Length` lies between the character count and twice it, and is 0 only for the empty string |
| `DotNetText.LetterOrDigitRun` | AuthService.API/Validators/AccountRequestValidator.cs:14 | the greedy `[a-zA-Z0-9]*` stops after a run of letters and digits, at the end or at the first other character |
| `DotNetText.PatternAcceptsTrailingLineFeed` | AuthService.API/Validators/AccountRequestValidator.cs:14 | `^[a-zA-Z0-9]*$` accepts exactly the letter-and-digit strings, plus those strings followed by one line feed |
| `DotNetText.TrailingLineFeedAccepted` | AuthService.API/Validators/UsernameRequestValidator.cs:16 | `"abcdef\n"` matches the pattern although it is not alphanumeric |
| `DotNetText.AnchoredPatternIsLettersAndDigits` | AuthService.API/Validators/AccountRequestValidator.cs:14 | the pattern anchored with `\z` accepts exactly the strings of ASCII letters and digits |
| `DotNetText.PatternsAgreeWithoutFinalLineFeed` | AuthService.API/Validators/UsernameRequestValidator.cs:16 | the written and the anchored pattern agree on every string that does not end in a line feed |
| `AccountStore.Add` | AuthService.Repository/Implementation/AccountRepository.cs:16-21 | the insert succeeds iff the id is new and the username unclaimed; it then adds exactly that row and returns the entity; each error names a constraint that really is violated |
| `AccountStore.UpdateAccount` | AuthService.Repository/Implementation/AccountRepository.cs:23-28 | the overwrite succeeds iff the row exists and no OTHER row holds the username; it then changes only that row; a missing row is a not-found failure |
| `AccountStore.GetAccountByAccountId` | AuthService.Repository/Implementation/AccountRepository.cs:30-33 | returns the row with that key, null iff there is none |
| `AccountStore.GetAccountByUsername` | AuthService.Repository/Implementation/AccountRepository.cs:35-38 | null iff nobody holds the exact username; otherwise the one row holding it, so the answer is unique |
| `AccountStore.AddThenLookup` | AuthService.Test/Repositories/AccountRepositoryTests.cs:62-87 | after a successful `Add`, lookup by id and lookup by username both return the inserted account |
| `AccountStore.UpdateThenLookup` | AuthService.Test/Repositories/AccountRepositoryTests.cs:48-59 | after a successful `UpdateAccount`, both lookups return the account with its new username |
| `AccountService.IsUserNameAvailable` | AuthService.Service/Implementation/AccountService.cs:16-20 | true iff no stored account has the username |
| `AccountService.IsAccountValid` | AuthService.Service/Implementation/AccountService.cs:22-27 | true iff every holder of the username is the given id; false iff some other id holds it |
| `AccountService.AvailableIsValidForAnyId` | AuthService.Service/Implementation/AccountService.cs:16-27 | an available username is valid for every id |
| `AccountService.ClaimedIsValidOnlyForHolder` | AuthService.Test/Services/AccountServiceTests.cs:56-77 | a claimed username is valid for its holder and for no other id |
| `AccountService.ChooseWrite` | AuthService.Service/Implementation/AccountService.cs:31-42 | the decision is an insert of the submitted account iff the username is available; otherwise an overwrite of the holder with the same username |
| `AccountService.Perform` | AuthService.Service/Implementation/AccountService.cs:33-45 | the chosen write returns the entity it wrote, tags it `Create` iff it was an insert, and changes only that row |
| `AccountService.CreateOrUpdate` | AuthService.Service/Implementation/AccountService.cs:29-46 | on an available username it inserts the submitted account and reports `Create`, failing only on the primary key; otherwise it reports `Update`, returns the holder with the submitted username and leaves the table unchanged; after a success the returned account holds the username |
| `AccountService.ForeignHolderIsReturned` | AuthService.Service/Implementation/AccountService.cs:31-37 | when another id holds the username, the call reports `Update` with that other account and stores nothing |
| `AccountService.ResubmitIsIdempotent` | AuthService.Service/Implementation/AccountService.cs:33-38 | resubmitting an account's own username is an `Update` that returns it and changes nothing |
| `AccountService.RenameTakesAddBranch` | AuthService.Service/Implementation/AccountService.cs:39-43 | a stored id with an unclaimed username takes the insert branch and fails on the primary key |
| `AccountService.RaceLoserHitsUniqueIndex` | AuthService.Repository/DBContext/AccountContext.cs:16-17 | of two claims decided on the same snapshot, the second write is an insert that the unique index rejects |
| `Validators.RuleChainErrors` | AuthService.API/Validators/UsernameRequestValidator.cs:13-20 | every rule of the chain runs: each message is present iff its rule fails, in declaration order, and nothing else is listed |
| `Validators.UsernameRuleErrors` | AuthService.API/Validators/AccountRequestValidator.cs:11-15 | each of the four messages is present iff its rule fails, in chain order, and the list is empty iff all rules pass |
| `Validators.AccountRequestErrors` | AuthService.API/Validators/AccountRequestValidator.cs:9-19 | "taken" iff ANOTHER id holds the username; "Account Id is required." iff the id is empty, and then it comes last; no errors iff the username is well formed, valid for this id, and the id is non-empty |
| `Validators.UsernameRequestErrors` | AuthService.API/Validators/UsernameRequestValidator.cs:11-21 | "taken" iff ANY account holds the username (no self-exclusion); no errors iff well formed and unclaimed |
| `Validators.WellFormedUsernameFitsColumn` | AuthService.Repository/DBContext/AccountContext.cs:18-20 | a username accepted by the syntax rules has 6 to 30 characters and fits the 100-unit column |
| `Validators.TrailingLineFeedPassesSyntaxRules` | AuthService.API/Validators/AccountRequestValidator.cs:12-14 | `"abcdef\n"` passes all three syntax rules with no message |
| `Validators.IntendedUsernameRuleErrors` | AuthService.API/Validators/AccountRequestValidator.cs:12-15 | with the anchored pattern, no errors iff non-blank, 6–30 units, only ASCII letters and digits, and unique; such a username has 6–30 characters |
| `ResponseModel.Ok` | AuthService.API/ResponseModel/Response.cs:10-15 | success, the given data and message, no error list |
| `ResponseModel.Fail` | AuthService.API/ResponseModel/Response.cs:17-22 | failure, the given error list and message, no data |
| `ResponseModel.FailWith` | AuthService.API/ResponseModel/Response.cs:24-29 | the same as the list overload on the one-element list of the error |
| `ResponseModel.SuccessExactlyFromOk` | AuthService.API/ResponseModel/Response.cs:5-29 | `Success` is true exactly for `Ok`; data present iff success, errors present iff failure; the message passes through |
| `AccountController.ValidateUsername` | AuthService.API/Controllers/AccountController.cs:34-40 | success, with data true and "Username is valid", iff the username is well formed and unclaimed; otherwise data false, no message, and `Errors` exactly the validator's messages in chain order, naming "taken" iff it is claimed |
| `AccountController.CreateAccount` | AuthService.API/Controllers/AccountController.cs:42-59 | a rejected request returns the validator's errors with "Validation failed" and leaves the store unchanged; an accepted one that does not throw gets a success response, and it leaves the requested id holding the username with nothing else changed, returns that id and username, and says "created" iff the id was new and "updated" iff it was stored; it throws iff it renames a stored account, and then on the primary key |
| `AccountController.MessageFollowsOperation` | AuthService.API/Controllers/AccountController.cs:53-58 | the message is "created" iff `CreateOrUpdate` reported `Create`, and the payload is the record it returned |
| `AccountController.SecondClaimIsRefused` | AuthService.API/Controllers/AccountController.cs:45-50 | after one account claims a username, another id's request for it fails as taken and changes nothing |
| `AccountController.ResubmittedRequestIsUpdate` | AuthService.API/Controllers/AccountController.cs:53-58 | resubmitting an accepted request returns "Account updated successfully" and leaves the table unchanged |
| `AccountController.StepKeepsRows` | AuthService.API/Controllers/AccountController.cs:43-58 | one call never removes an account, never changes a stored username, and keeps stored usernames well formed |
| `AccountController.ServeKeepsRows` | AuthService.API/Controllers/AccountController.cs:43-58 | over any sequence of calls, stored usernames stay well formed and within the 100-unit column, no account disappears, and no stored username changes |

## Left out

- `AccountStore.Add`: stores `Guid.Empty` as given. EF Core's convention generates a fresh key for an empty `Guid` key on insert. The validator rejects the empty id before any insert, so this path is unreachable from the controller.
- `AccountStore.Add`: when both the key and the username collide, the model reports the key violation. Which constraint SQLite reports first is not modelled; the contract only says that the reported constraint is violated.
- `AccountStore.UpdateAccount`: for an entity whose key is `Guid.Empty`, EF Core's `Update` tracks it as Added and inserts it under a generated key. The model fails with `RowNotFound` instead. `CreateOrUpdate` only updates a row it has just found, so no caller reaches this case.
- `AccountStore.UpdateAccount`: EF change-tracking conflicts are not modelled. An example is a second tracked instance with the same key. They would be exceptions too, but no code path here produces one.
- Null strings: every username is a present string. The request models that could carry `null` are not part of this model.
- `SaveChangesAsync` returns a count of written rows. The model does not return it; each write saves exactly one row.
- `HasMaxLength(100)` is not a write failure, because the SQLite provider does not enforce it. `IsRequired()` holds by construction.
- Concurrency: requests are served one after another. The check-then-act race appears only as two decisions taken on one snapshot (`AccountService.RaceLoserHitsUniqueIndex`).
- `async`/`Task`, cancellation, logging, HTTP routing and status codes, the global exception middleware, dependency injection and migrations (`Program.cs`) are plumbing with no decision logic.
- AutoMapper (`MappingProfile.cs`) is modelled as a field-for-field copy of `AccountId` and `Username` inside `AccountController.CreateAccount`.
- The interfaces `IAccountRepository` and `IAccountService` only give the shape of the operations.
- FluentValidation's regular-expression timeout and the regex engine itself are not modelled. The one pattern is modelled by its greedy match and its end anchor.

## Findings

| source | as written | input that shows it | evidently intended | confidence | as-written member | corrected member |
|---|---|---|---|---|---|---|
| AuthService.API/Validators/AccountRequestValidator.cs:14 | `Matches("^[a-zA-Z0-9]*$")`. In .NET, `$` also matches just before a final line feed. So a username of letters and digits followed by `\n` passes every syntax rule in both validators (UsernameRequestValidator.cs:16 too) and gets stored. | `"abcdef\n"` | only ASCII letters and digits, i.e. `^[a-zA-Z0-9]*\z` | not executed; high (documented `$` semantics of .NET regular expressions) | `Validators.TrailingLineFeedPassesSyntaxRules` | `Validators.IntendedUsernameRuleErrors` |

The request pipeline keeps the rule as written, so that the controller's
proved properties describe the deployed behaviour. Of the syntax rules, only
the length rule is needed for the 100-unit column bound; no controller
property depends on which anchor the pattern uses.
`DotNetText.PatternsAgreeWithoutFinalLineFeed` shows that the two patterns
differ only on strings that end in a line feed.

=== FILE: account_controller.dfy ===
/** `AccountController`: validate, then (for `CreateAccount`) map the request
    field for field to an `Account`, call `CreateOrUpdate`, and choose the
    message from the reported operation. The two actions are modelled as
    functions of the table; an exception escaping `CreateOrUpdate` is a
    `Failure` (it never becomes a `Response`). */
module AccountController {
  import opened Outcomes
  import opened Domain
  import opened AccountStore
  import opened AccountService
  import opened Validators
  import opened ResponseModel

  datatype AccountRequest = AccountRequest(accountId: Guid, username: string)
  datatype AccountResponse = AccountResponse(accountId: Guid, username: string)

  const UsernameIsValid := "Username is valid"
  const ValidationFailed := "Validation failed"
  const AccountCreated := "Account created successfully"
  const AccountUpdated := "Account updated successfully"

  /** The table after the action and the response it returned. */
  datatype Handled = Handled(table: Table, response: Response<AccountResponse>)

  /** `ValidateUsername` (GET): on failure the data is `default(bool)`,
      i.e. `false`, and the message is absent. */
  function ValidateUsername(t: Table, username: string): (r: Response<bool>)
    ensures r.success <==> WellFormedUsername(username) && Unclaimed(t, username)
    ensures ValueOr(r.data, false) == r.success
    ensures r.success ==> r.message == Some(UsernameIsValid) && r.errors.None?
    ensures !r.success ==> r.message.None? && r.errors.Some? && r.errors.value != []
    ensures !r.success ==> r.errors == Some(UsernameRequestErrors(t, username))
    ensures !r.success ==> (UsernameTaken in r.errors.value <==> !Unclaimed(t, username))
    ensures !r.success ==> InChainOrder(r.errors.value)
  {
    var errors := UsernameRequestErrors(t, username);
    if errors != [] then Fail(errors, None) else Ok(true, Some(UsernameIsValid))
  }

  /** `CreateAccount` (POST). */
  function CreateAccount(t: Table, model: AccountRequest): (r: Result<Handled, DbError>)
    // Rejected requests: the validator's messages, the store untouched.
    ensures AccountRequestErrors(t, model.accountId, model.username) != [] ==>
              r == Success(Handled(t, Fail(AccountRequestErrors(t, model.accountId, model.username), Some(ValidationFailed))))
    ensures r.Success? && !r.value.response.success ==> r.value.table == t
    // An accepted request that does not throw is answered with success.
    ensures AccountRequestErrors(t, model.accountId, model.username) == [] && r.Success? ==>
              r.value.response.success
    // Accepted requests: the requested account now holds the username,
    // nothing else changed, and the message tells whether it was new.
    ensures r.Success? && r.value.response.success ==>
              && WellFormedUsername(model.username)
              && model.accountId != EmptyGuid
              && SetsOnly(t, r.value.table, model.accountId, model.username)
              && r.value.response.data == Some(AccountResponse(model.accountId, model.username))
              && r.value.response.errors.None?
              && (r.value.response.message == Some(AccountCreated) <==> model.accountId !in t)
              && (r.value.response.message == Some(AccountUpdated) <==> model.accountId in t)
    // The one way an accepted request fails: renaming a stored account.
    ensures r.Failure? <==>
              && AccountRequestErrors(t, model.accountId, model.username) == []
              && model.accountId in t
              && t[model.accountId] != model.username
    ensures r.Failure? ==> r.error == PrimaryKeyViolation
  {
    var errors := AccountRequestErrors(t, model.accountId, model.username);
    if errors != [] then
      Success(Handled(t, Fail(errors, Some(ValidationFailed))))
    else
      var domainModel := Account(model.accountId, model.username);
      match CreateOrUpdate(t, domainModel)
      case Failure(e) => Failure(e)
      case Success(done) =>
        var responseModel := AccountResponse(done.reply.data.accountId, done.reply.data.username);
        var message := if done.reply.operation == Create then AccountCreated else AccountUpdated;
        Success(Handled(done.table, Ok(responseModel, Some(message))))
  }

  /** The message names the operation `CreateOrUpdate` reported, and the
      payload is the record it returned. */
  lemma MessageFollowsOperation(t: Table, model: AccountRequest)
    requires AccountRequestErrors(t, model.accountId, model.username) == []
    requires CreateOrUpdate(t, Account(model.accountId, model.username)).Success?
    ensures CreateAccount(t, model).Success?
    ensures var reply := CreateOrUpdate(t, Account(model.accountId, model.username)).value.reply;
            && CreateAccount(t, model).value.response.data == Some(AccountResponse(reply.data.accountId, reply.data.username))
            && (CreateAccount(t, model).value.response.message == Some(AccountCreated) <==> reply.operation == Create)
  {
  }

  /** Once an account holds a username, a request from another id for that
      username is refused as taken and changes nothing. */
  lemma SecondClaimIsRefused(t: Table, first: AccountRequest, second: AccountRequest)
    requires CreateAccount(t, first).Success? && CreateAccount(t, first).value.response.success
    requires second.username == first.username && second.accountId != first.accountId
    ensures var t1 := CreateAccount(t, first).value.table;
            && CreateAccount(t1, second).Success?
            && !CreateAccount(t1, second).value.response.success
            && CreateAccount(t1, second).value.table == t1
            && UsernameTaken in CreateAccount(t1, second).value.response.errors.value
  {
  }

  /** Submitting the same accepted request twice: the second is an update
      that changes nothing. */
  lemma ResubmittedRequestIsUpdate(t: Table, model: AccountRequest)
    requires CreateAccount(t, model).Success? && CreateAccount(t, model).value.response.success
    ensures var t1 := CreateAccount(t, model).value.table;
            && CreateAccount(t1, model) == Success(Handled(t1, Ok(AccountResponse(model.accountId, model.username), Some(AccountUpdated))))
  {
  }

  /** A request arriving at the service. */
  datatype Call = Probe(username: string) | Submit(request: AccountRequest)

  /** The table after one call: probes only read, and a request whose write
      throws leaves the table as it was. */
  function Step(t: Table, c: Call): Table {
    match c
    case Probe(_) => t
    case Submit(model) =>
      match CreateAccount(t, model)
      case Success(handled) => handled.table
      case Failure(_) => t
  }

  /** The table after serving `calls` one after the other. */
  function Serve(t: Table, calls: seq<Call>): Table
    decreases |calls|
  {
    if calls == [] then t else Serve(Step(t, calls[0]), calls[1..])
  }

  /** Every stored username passes the syntax rules. */
  predicate StoredUsernamesWellFormed(t: Table) {
    forall k | k in t :: WellFormedUsername(t[k])
  }

  /** One call keeps stored usernames well-formed, never removes an account
      and never changes the username of a stored account. */
  lemma StepKeepsRows(t: Table, c: Call)
    ensures t.Keys <= Step(t, c).Keys
    ensures forall k | k in t :: Step(t, c)[k] == t[k]
    ensures StoredUsernamesWellFormed(t) ==> StoredUsernamesWellFormed(Step(t, c))
  {
  }

  /** Over any sequence of calls, starting from a table whose usernames all
      pass the syntax rules (the empty table, say): usernames stay unique
      (the type `Table`), stay well-formed and so fit the 100-character
      column, no account disappears, and no stored account ever changes its
      username — renaming through this API always ends in the key violation. */
  lemma {:induction false} ServeKeepsRows(t: Table, calls: seq<Call>)
    requires StoredUsernamesWellFormed(t)
    ensures StoredUsernamesWellFormed(Serve(t, calls))
    ensures forall k | k in Serve(t, calls) :: FitsUsernameColumn(Serve(t, calls)[k])
    ensures t.Keys <= Serve(t, calls).Keys
    ensures forall k | k in t :: Serve(t, calls)[k] == t[k]
    decreases |calls|
  {
    if calls == [] {
      var s := Serve(t, calls);
      forall k | k in s
        ensures FitsUsernameColumn(s[k])
      {
        WellFormedUsernameFitsColumn(s[k]);
      }
    } else {
      StepKeepsRows(t, calls[0]);
      ServeKeepsRows(Step(t, calls[0]), calls[1..]);
    }
  }
}

=== FILE: account_service.dfy ===
/** `AccountService`: the availability and validity predicates and the
    create-or-update procedure. Every decision is taken on the result of a
    lookup by USERNAME; the submitted id is never looked up. */
module AccountService {
  import opened Outcomes
  import opened Domain
  import opened AccountStore

  datatype Operation = Create | Update

  /** `CreateUpdate`: the record the repository returned and which path ran. */
  datatype CreateUpdate = CreateUpdate(data: Account, operation: Operation)

  /** A completed `CreateOrUpdate`: the committed table and the reply. */
  datatype Upserted = Upserted(table: Table, reply: CreateUpdate)

  /** `IsUserNameAvailable`: nobody holds `u`. It reads and never writes. */
  function IsUserNameAvailable(t: Table, u: string): (r: bool)
    ensures r <==> forall k | k in t :: t[k] != u
  {
    GetAccountByUsername(t, u).None?
  }

  /** `IsAccountValid`: `u` is unclaimed, or the one account holding it is `id`. */
  function IsAccountValid(t: Table, u: string, id: Guid): (r: bool)
    ensures r <==> forall k | k in t && t[k] == u :: k == id
    ensures !r <==> exists k | k in t :: t[k] == u && k != id
  {
    match GetAccountByUsername(t, u)
    case None => true
    case Some(found) => found.accountId == id
  }

  /** An available username is valid for every id. */
  lemma AvailableIsValidForAnyId(t: Table, u: string, id: Guid)
    requires IsUserNameAvailable(t, u)
    ensures IsAccountValid(t, u, id)
  {
  }

  /** A claimed username is valid for its holder and for nobody else. */
  lemma ClaimedIsValidOnlyForHolder(t: Table, u: string, holder: Guid, id: Guid)
    requires Holds(t, holder, u)
    ensures IsAccountValid(t, u, id) <==> id == holder
  {
  }

  /** The single repository write `CreateOrUpdate` performs. */
  datatype RepositoryWrite = Insert(account: Account) | Overwrite(account: Account)

  /** The decision half of `CreateOrUpdate`, the username lookup and the
      choice of write: look up the
      submitted USERNAME; a holder is overwritten with that same username,
      otherwise the submitted account is inserted. */
  function ChooseWrite(t: Table, a: Account): (w: RepositoryWrite)
    ensures w.Insert? <==> IsUserNameAvailable(t, a.username)
    ensures w.Insert? ==> w.account == a
    ensures w.Overwrite? ==> w.account.username == a.username
    ensures w.Overwrite? ==> Holds(t, w.account.accountId, a.username)
  {
    match GetAccountByUsername(t, a.username)
    case Some(existing) => Overwrite(existing.(username := a.username))
    case None => Insert(a)
  }

  /** The write half: hand the chosen entity to `UpdateAccount` or `Add`. */
  function Perform(t: Table, w: RepositoryWrite): (r: Result<Upserted, DbError>)
    ensures r.Success? ==> r.value.reply.data == w.account
    ensures r.Success? ==> (r.value.reply.operation == Create <==> w.Insert?)
    ensures r.Success? ==> SetsOnly(t, r.value.table, w.account.accountId, w.account.username)
    ensures w.Insert? ==> (r.Success? <==> w.account.accountId !in t && Unclaimed(t, w.account.username))
  {
    match w
    case Overwrite(existing) =>
      (match UpdateAccount(t, existing)
       case Success(saved) => Success(Upserted(saved.table, CreateUpdate(saved.entity, Update)))
       case Failure(e) => Failure(e))
    case Insert(account) =>
      (match Add(t, account)
       case Success(saved) => Success(Upserted(saved.table, CreateUpdate(saved.entity, Create)))
       case Failure(e) => Failure(e))
  }

  /** `CreateOrUpdate`: one lookup by username, then exactly one write. */
  function CreateOrUpdate(t: Table, a: Account): (r: Result<Upserted, DbError>)
    // Create path: nobody holds the username, so the account is inserted as
    // submitted; only the primary key can make that insert fail.
    ensures IsUserNameAvailable(t, a.username) ==>
              && (r.Success? <==> a.accountId !in t)
              && (r.Failure? ==> r.error == PrimaryKeyViolation)
              && (r.Success? ==> r.value.reply == CreateUpdate(a, Create))
              && (r.Success? ==> SetsOnly(t, r.value.table, a.accountId, a.username))
    // Update path: the holder is "renamed" to the username it already has,
    // so the write succeeds, changes nothing and returns the holder.
    ensures !IsUserNameAvailable(t, a.username) ==>
              && r.Success?
              && r.value.table == t
              && r.value.reply.operation == Update
              && r.value.reply.data.username == a.username
              && Holds(t, r.value.reply.data.accountId, a.username)
    // Either way a success leaves exactly one account holding the username.
    ensures r.Success? ==> Holds(r.value.table, r.value.reply.data.accountId, a.username)
  {
    Perform(t, ChooseWrite(t, a))
  }

  /** When the username belongs to a DIFFERENT account, the call reports
      `Update` with that other account, and the submitted id is not stored. */
  lemma ForeignHolderIsReturned(t: Table, a: Account, holder: Guid)
    requires Holds(t, holder, a.username) && holder != a.accountId
    ensures CreateOrUpdate(t, a).Success?
    ensures CreateOrUpdate(t, a).value.reply == CreateUpdate(Account(holder, a.username), Update)
    ensures CreateOrUpdate(t, a).value.table == t
  {
  }

  /** Submitting the username an account already has is an `Update` that
      leaves the table as it was; doing it again gives the same answer. */
  lemma ResubmitIsIdempotent(t: Table, a: Account)
    requires Holds(t, a.accountId, a.username)
    ensures CreateOrUpdate(t, a) == Success(Upserted(t, CreateUpdate(a, Update)))
  {
  }

  /** Renaming a stored account to an unclaimed username goes down the
      `Add` branch, where the primary key rejects it: the lookup is by
      username, so the existing row is never found. */
  lemma RenameTakesAddBranch(t: Table, a: Account)
    requires a.accountId in t && IsUserNameAvailable(t, a.username)
    ensures ChooseWrite(t, a) == Insert(a)
    ensures CreateOrUpdate(t, a) == Failure(PrimaryKeyViolation)
  {
  }

  /** The check-then-act race, sequentialised: two submissions of one
      unclaimed username under two new ids both take their lookup on the same
      snapshot. The first write commits; the second, chosen on the stale
      snapshot, is an insert that the unique index rejects. */
  lemma RaceLoserHitsUniqueIndex(t: Table, a1: Account, a2: Account)
    requires a1.username == a2.username && a1.accountId != a2.accountId
    requires a1.accountId !in t && a2.accountId !in t
    requires IsUserNameAvailable(t, a1.username)
    ensures CreateOrUpdate(t, a1).Success?
    ensures Perform(CreateOrUpdate(t, a1).value.table, ChooseWrite(t, a2)) == Failure(UniqueIndexViolation)
  {
  }
}

=== FILE: account_store.dfy ===
/** The accounts table behind `AccountRepository`, with the constraints that
    `AccountContext.OnModelCreating` declares: `AccountId` is the primary key
    (a map has one entry per key) and `Username` carries a unique index
    (the constraint of the subset type `Table`). A write that would break a
    constraint fails, and the table it was applied to stays as it was,
    because `SaveChangesAsync` commits all or nothing. */
module AccountStore {
  import opened Outcomes
  import opened Domain
  import DotNetText

  /** The unique index on `Username`: no two rows share a username. */
  predicate UniqueUsernames(rows: map<Guid, string>) {
    forall i, j | i in rows && j in rows && rows[i] == rows[j] :: i == j
  }

  /** Every state the database can be in: rows keyed by `AccountId`,
      usernames pairwise distinct. */
  type Table = rows: map<Guid, string> | UniqueUsernames(rows) witness map[]

  /** `HasMaxLength(100)` on `Username`. The SQLite provider does not enforce
      it, so it is an invariant the request path has to keep (see
      `AccountController`), not a reason for a write to fail. */
  const UsernameMaxLength: nat := 100

  predicate FitsUsernameColumn(u: string) {
    DotNetText.Utf16Length(u) <= UsernameMaxLength
  }

  /** Why `SaveChangesAsync` threw. */
  datatype DbError =
    | PrimaryKeyViolation   // INSERT of an `AccountId` that is already stored
    | UniqueIndexViolation  // a write that would give two rows one username
    | RowNotFound           // UPDATE matched no row (a concurrency exception)

  /** A committed write: the new table and the entity the repository returns. */
  datatype Saved = Saved(table: Table, entity: Account)

  /** The row keyed `id` exists and holds username `u`. */
  predicate Holds(t: Table, id: Guid, u: string) {
    id in t && t[id] == u
  }

  /** Nobody holds `u`. */
  predicate Unclaimed(t: Table, u: string) {
    forall k | k in t :: t[k] != u
  }

  /** `t2` is `t` with row `id` set to `u` and every other row as it was. */
  predicate SetsOnly(t: Table, t2: Table, id: Guid, u: string) {
    && t2.Keys == t.Keys + {id}
    && t2[id] == u
    && forall k | k in t && k != id :: t2[k] == t[k]
  }

  /** `Add`: insert a new row and save. */
  function Add(t: Table, a: Account): (r: Result<Saved, DbError>)
    ensures r.Success? <==> a.accountId !in t && Unclaimed(t, a.username)
    ensures r.Success? ==> r.value.entity == a && a.accountId !in t
    ensures r.Success? ==> SetsOnly(t, r.value.table, a.accountId, a.username)
    ensures r == Failure(PrimaryKeyViolation) ==> a.accountId in t
    ensures r == Failure(UniqueIndexViolation) ==> !Unclaimed(t, a.username)
    ensures r.Failure? ==> r.error != RowNotFound
  {
    if a.accountId in t then Failure(PrimaryKeyViolation)
    else if a.username in t.Values then Failure(UniqueIndexViolation)
    else Success(Saved(t[a.accountId := a.username], a))
  }

  /** `UpdateAccount`: overwrite the row keyed by the entity's id and save. */
  function UpdateAccount(t: Table, a: Account): (r: Result<Saved, DbError>)
    ensures r.Success? <==>
              a.accountId in t && forall k | k in t && t[k] == a.username :: k == a.accountId
    ensures r.Success? ==> r.value.entity == a
    ensures r.Success? ==> r.value.table.Keys == t.Keys
    ensures r.Success? ==> SetsOnly(t, r.value.table, a.accountId, a.username)
    ensures r == Failure(RowNotFound) <==> a.accountId !in t
    ensures r == Failure(UniqueIndexViolation) ==> !Unclaimed(t, a.username)
    ensures r.Failure? ==> r.error != PrimaryKeyViolation
  {
    if a.accountId !in t then Failure(RowNotFound)
    else if a.username in t.Values && t[a.accountId] != a.username then Failure(UniqueIndexViolation)
    else Success(Saved(t[a.accountId := a.username], a))
  }

  /** `GetAccountByAccountIdAsync`: the row with that key, or null. */
  function GetAccountByAccountId(t: Table, id: Guid): (r: Option<Account>)
    ensures r.None? <==> id !in t
    ensures r.Some? ==> r.value.accountId == id && Holds(t, id, r.value.username)
  {
    if id in t then Some(Account(id, t[id])) else None
  }

  /** `GetAccountByUsernameAsync`: the first row whose username is exactly
      `u`, or null. The unique index leaves at most one candidate, so which
      row is first does not matter. */
  function GetAccountByUsername(t: Table, u: string): (r: Option<Account>)
    ensures r.None? <==> Unclaimed(t, u)
    ensures r.Some? ==> r.value.username == u && Holds(t, r.value.accountId, u)
    ensures forall k | Holds(t, k, u) :: r == Some(Account(k, u))
  {
    if u in t.Values then
      var id :| id in t && t[id] == u;
      Some(Account(id, u))
    else
      None
  }

  /** After a successful `Add`, both lookups find the inserted row. */
  lemma AddThenLookup(t: Table, a: Account)
    requires Add(t, a).Success?
    ensures GetAccountByAccountId(Add(t, a).value.table, a.accountId) == Some(a)
    ensures GetAccountByUsername(Add(t, a).value.table, a.username) == Some(a)
  {
  }

  /** After a successful `UpdateAccount`, the row keyed by the entity's id
      carries the new username and a username lookup finds it. */
  lemma UpdateThenLookup(t: Table, a: Account)
    requires UpdateAccount(t, a).Success?
    ensures GetAccountByAccountId(UpdateAccount(t, a).value.table, a.accountId) == Some(a)
    ensures GetAccountByUsername(UpdateAccount(t, a).value.table, a.username) == Some(a)
  {
  }
}

=== FILE: domain.dfy ===
/** The domain entity shared by every layer: an account is an identifier
    chosen by the caller together with a username. */
module Domain {

  /** A `System.Guid`: 128 bits, modelled by their value as an unsigned integer. */
  newtype Guid = x: int | 0 <= x < 0x1_0000_0000_0000_0000_0000_0000_0000_0000

  /** `Guid.Empty`, the all-zero identifier. */
  const EmptyGuid: Guid := 0

  /** An account row: the primary key and the username. */
  datatype Account = Account(accountId: Guid, username: string)
}

=== FILE: dotnet_text.dfy ===
/** The .NET string semantics the validators rely on: `string.Length`
    (UTF-16 code units), `string.IsNullOrWhiteSpace`, and the regular
    expression `^[a-zA-Z0-9]*$` as `Regex.IsMatch` evaluates it. */
module DotNetText {

  /** `char.IsWhiteSpace`: the Unicode space, line and paragraph separators,
      U+0009..U+000D and U+0085. */
  predicate IsWhiteSpace(c: char) {
    || c == ' '
    || ('\t' <= c <= '\r')
    || c == '\U{85}'
    || c == '\U{A0}'
    || c == '\U{1680}'
    || ('\U{2000}' <= c <= '\U{200A}')
    || c == '\U{2028}'
    || c == '\U{2029}'
    || c == '\U{202F}'
    || c == '\U{205F}'
    || c == '\U{3000}'
  }

  /** `string.IsNullOrWhiteSpace` on a non-null string: empty, or only white space. */
  predicate IsNullOrWhiteSpace(s: string) {
    forall i | 0 <= i < |s| :: IsWhiteSpace(s[i])
  }

  /** Number of UTF-16 code units that encode one Unicode scalar value. */
  function CodeUnits(c: char): nat {
    if c as int >= 0x10000 then 2 else 1
  }

  /** `string.Length`: .NET strings are UTF-16, so a character outside the
      Basic Multilingual Plane counts twice. */
  function Utf16Length(s: string): (n: nat)
    ensures |s| <= n <= 2 * |s|
    ensures n == 0 <==> s == []
  {
    if s == [] then 0 else CodeUnits(s[0]) + Utf16Length(s[1..])
  }

  /** A string in the Basic Multilingual Plane has as many code units as characters. */
  lemma {:induction false} Utf16LengthOfBmp(s: string)
    requires forall i | 0 <= i < |s| :: s[i] as int < 0x10000
    ensures Utf16Length(s) == |s|
  {
    if s != [] {
      Utf16LengthOfBmp(s[1..]);
    }
  }

  /** The character class `[a-zA-Z0-9]`: ASCII letters and digits only. */
  predicate IsAsciiLetterOrDigit(c: char) {
    ('a' <= c <= 'z') || ('A' <= c <= 'Z') || ('0' <= c <= '9')
  }

  predicate AllAsciiLettersOrDigits(s: string) {
    forall i | 0 <= i < |s| :: IsAsciiLetterOrDigit(s[i])
  }

  /** A string of ASCII letters and digits has one code unit per character. */
  lemma LettersAndDigitsAreOneUnitEach(s: string)
    ensures AllAsciiLettersOrDigits(s) ==> Utf16Length(s) == |s|
  {
    if AllAsciiLettersOrDigits(s) {
      Utf16LengthOfBmp(s);
    }
  }

  /** Where the greedy `[a-zA-Z0-9]*` started at `from` stops: the end of the
      longest run of letters and digits. */
  function LetterOrDigitRun(s: string, from: nat): (end: nat)
    requires from <= |s|
    ensures from <= end <= |s|
    ensures forall i | from <= i < end :: IsAsciiLetterOrDigit(s[i])
    ensures end < |s| ==> !IsAsciiLetterOrDigit(s[end])
    decreases |s| - from
  {
    if from < |s| && IsAsciiLetterOrDigit(s[from]) then LetterOrDigitRun(s, from + 1) else from
  }

  /** The .NET anchor `$` without `RegexOptions.Multiline`: it matches at the
      end of the input and also just before a final line feed. */
  predicate DollarMatchesAt(s: string, p: nat) {
    p == |s| || (p + 1 == |s| && s[p] == '\n')
  }

  /** The anchor `\z`: the very end of the input only. */
  predicate EndOfInputAt(s: string, p: nat) {
    p == |s|
  }

  /** `Regex.IsMatch(s, "^[a-zA-Z0-9]*$")`: the greedy run from the start
      followed by `$`. Backtracking to a shorter run never helps, because
      every earlier position holds a letter or digit, which `$` rejects. */
  predicate MatchesLettersAndDigitsPattern(s: string) {
    DollarMatchesAt(s, LetterOrDigitRun(s, 0))
  }

  /** What `^[a-zA-Z0-9]*$` accepts: a string of letters and digits, optionally
      followed by ONE line feed. The second alternative is the surprise. */
  lemma PatternAcceptsTrailingLineFeed(s: string)
    ensures MatchesLettersAndDigitsPattern(s) <==>
              || AllAsciiLettersOrDigits(s)
              || (|s| > 0 && s[|s| - 1] == '\n' && AllAsciiLettersOrDigits(s[..|s| - 1]))
  {
  }

  /** The concrete input that shows the surprise: seven characters, the last
      a line feed, accepted by the pattern although it is not alphanumeric. */
  lemma TrailingLineFeedAccepted()
    ensures MatchesLettersAndDigitsPattern("abcdef\n")
    ensures !AllAsciiLettersOrDigits("abcdef\n")
  {
    PatternAcceptsTrailingLineFeed("abcdef\n");
    assert !IsAsciiLetterOrDigit("abcdef\n"[6]);
  }

  /** The intended rule, `^[a-zA-Z0-9]*\z`: the greedy run must
      reach the very end of the input. */
  predicate MatchesAnchoredLettersAndDigits(s: string) {
    EndOfInputAt(s, LetterOrDigitRun(s, 0))
  }

  /** The corrected rule accepts exactly the strings of ASCII letters and digits. */
  lemma AnchoredPatternIsLettersAndDigits(s: string)
    ensures MatchesAnchoredLettersAndDigits(s) <==> AllAsciiLettersOrDigits(s)
  {
  }

  /** The two rules disagree only on strings that end in a line feed. */
  lemma PatternsAgreeWithoutFinalLineFeed(s: string)
    requires s == [] || s[|s| - 1] != '\n'
    ensures MatchesLettersAndDigitsPattern(s) <==> MatchesAnchoredLettersAndDigits(s)
  {
  }
}

=== FILE: outcomes.dfy ===
/** The two shapes of answer the C# code gives besides plain values: a
    reference that may be `null`, and a call that returns or throws. */
module Outcomes {

  /** A nullable reference: `None` is `null`. */
  datatype Option<T> = None | Some(value: T)

  /** C#'s `x ?? fallback`. */
  function ValueOr<T>(x: Option<T>, fallback: T): T {
    if x.Some? then x.value else fallback
  }

  /** A call that returned (`Success`) or threw (`Failure`). */
  datatype Result<T, E> = Success(value: T) | Failure(error: E)
}

=== FILE: response.dfy ===
/** `Response<T>`, the envelope every controller action returns, and its
    three factory methods. A C# `null` (or `default(T)` for `Data`) is `None`. */
module ResponseModel {
  import opened Outcomes

  datatype Response<T> = Response(
    success: bool,
    data: Option<T>,
    errors: Option<seq<string>>,
    message: Option<string>)

  /** `Ok(data, message)`. */
  function Ok<T>(data: T, message: Option<string>): (r: Response<T>)
    ensures r.success
    ensures r.data == Some(data) && r.message == message
    ensures r.errors.None?
  {
    Response(true, Some(data), None, message)
  }

  /** `Fail(List<string> errors, message)`. */
  function Fail<T>(errors: seq<string>, message: Option<string>): (r: Response<T>)
    ensures !r.success
    ensures r.errors == Some(errors) && r.message == message
    ensures r.data.None?
  {
    Response(false, None, Some(errors), message)
  }

  /** `Fail(string error, message)`: the list overload on a one-element list. */
  function FailWith<T>(error: string, message: Option<string>): (r: Response<T>)
    ensures r == Fail([error], message)
    ensures r.errors.Some? && |r.errors.value| == 1 && r.errors.value[0] == error
  {
    Response(false, None, Some([error]), message)
  }

  /** A call of one of the three factories, with its arguments. */
  datatype FactoryCall<T> =
    | OkCall(data: T, message: Option<string>)
    | FailListCall(errorList: seq<string>, message: Option<string>)
    | FailOneCall(error: string, message: Option<string>)

  function Build<T>(c: FactoryCall<T>): Response<T> {
    match c
    case OkCall(d, m) => Ok(d, m)
    case FailListCall(es, m) => Fail(es, m)
    case FailOneCall(e, m) => FailWith(e, m)
  }

  /** `Success` is set exactly by `Ok`; a response carries data exactly when
      it succeeded and an error list exactly when it failed; every factory
      passes its message through. */
  lemma SuccessExactlyFromOk<T>(c: FactoryCall<T>)
    ensures Build(c).success <==> c.OkCall?
    ensures Build(c).data.Some? <==> Build(c).success
    ensures Build(c).errors.Some? <==> !Build(c).success
    ensures Build(c).message == c.message
  {
  }
}

=== FILE: validators.dfy ===
/** `AccountRequestValidator` and `UsernameRequestValidator`. FluentValidation
    runs every rule of a chain (the default cascade mode is `Continue`), so a
    username collects one message per failing rule, in the order the rules
    are declared; the `AccountId` rule comes after the username rules. */
module Validators {
  import opened Domain
  import opened DotNetText
  import AccountStore
  import AccountService

  const UsernameRequired := "Username is required."
  const UsernameLength := "Username must be between 6 and 30 characters."
  const UsernameAlphanumeric := "Username must be alphanumeric only."
  const UsernameTaken := "Username is already taken."
  const AccountIdRequired := "Account Id is required."

  const MinUsernameLength: nat := 6
  const MaxUsernameLength: nat := 30

  /** `NotEmpty()` on a string. */
  predicate PassesNotEmpty(u: string) {
    !IsNullOrWhiteSpace(u)
  }

  /** `Length(6, 30)`, on `string.Length`. */
  predicate PassesLength(u: string) {
    MinUsernameLength <= Utf16Length(u) <= MaxUsernameLength
  }

  /** `Matches("^[a-zA-Z0-9]*$")`. */
  predicate PassesPattern(u: string) {
    MatchesLettersAndDigitsPattern(u)
  }

  /** The three syntax rules together. */
  predicate WellFormedUsername(u: string) {
    PassesNotEmpty(u) && PassesLength(u) && PassesPattern(u)
  }

  /** Position of a username message in the rule chain. */
  function ChainPosition(m: string): nat {
    if m == UsernameRequired then 0
    else if m == UsernameLength then 1
    else if m == UsernameAlphanumeric then 2
    else if m == UsernameTaken then 3
    else 4
  }

  /** The messages are listed in chain order, each at most once. */
  predicate InChainOrder(errors: seq<string>) {
    forall i, j | 0 <= i < j < |errors| :: ChainPosition(errors[i]) < ChainPosition(errors[j])
  }

  lemma AccountIdMessageIsOutsideChain()
    ensures ChainPosition(AccountIdRequired) == 4
  {
    assert AccountIdRequired[0] == 'A';
    assert UsernameRequired[0] == UsernameLength[0] == UsernameAlphanumeric[0] == UsernameTaken[0] == 'U';
  }

  /** The four rules of `RuleFor(x => x.Username)`, given the answers of the
      pattern rule (`matches`) and of the uniqueness predicate that closes
      the chain (`unique`). */
  function RuleChainErrors(u: string, matches: bool, unique: bool): (r: seq<string>)
    ensures UsernameRequired in r <==> !PassesNotEmpty(u)
    ensures UsernameLength in r <==> !PassesLength(u)
    ensures UsernameAlphanumeric in r <==> !matches
    ensures UsernameTaken in r <==> !unique
    ensures forall m | m in r :: ChainPosition(m) < 4
    ensures InChainOrder(r)
    ensures r == [] <==> PassesNotEmpty(u) && PassesLength(u) && matches && unique
  {
    (if PassesNotEmpty(u) then [] else [UsernameRequired])
    + (if PassesLength(u) then [] else [UsernameLength])
    + (if matches then [] else [UsernameAlphanumeric])
    + (if unique then [] else [UsernameTaken])
  }

  /** The username chain shared by both validators, with the pattern as written. */
  function UsernameRuleErrors(u: string, unique: bool): (r: seq<string>)
    ensures UsernameRequired in r <==> !PassesNotEmpty(u)
    ensures UsernameLength in r <==> !PassesLength(u)
    ensures UsernameAlphanumeric in r <==> !PassesPattern(u)
    ensures UsernameTaken in r <==> !unique
    ensures forall m | m in r :: ChainPosition(m) < 4
    ensures InChainOrder(r)
    ensures r == [] <==> WellFormedUsername(u) && unique
  {
    RuleChainErrors(u, PassesPattern(u), unique)
  }

  /** `AccountRequestValidator`: the username chain ending in `IsAccountValid`
      with the request's own id, then `AccountId` must not be `Guid.Empty`. */
  function AccountRequestErrors(t: AccountStore.Table, accountId: Guid, username: string): (r: seq<string>)
    ensures UsernameRequired in r <==> !PassesNotEmpty(username)
    ensures UsernameLength in r <==> !PassesLength(username)
    ensures UsernameAlphanumeric in r <==> !PassesPattern(username)
    ensures UsernameTaken in r <==> exists k | k in t :: t[k] == username && k != accountId
    ensures AccountIdRequired in r <==> accountId == EmptyGuid
    ensures |r| > 0 && accountId == EmptyGuid ==> r[|r| - 1] == AccountIdRequired
    ensures forall m | m in r :: ChainPosition(m) < 4 || m == AccountIdRequired
    ensures InChainOrder(r)
    ensures r == [] <==>
              && WellFormedUsername(username)
              && (forall k | k in t && t[k] == username :: k == accountId)
              && accountId != EmptyGuid
  {
    AccountIdMessageIsOutsideChain();
    UsernameRuleErrors(username, AccountService.IsAccountValid(t, username, accountId)) + (if accountId == EmptyGuid then [AccountIdRequired] else [])
  }

  /** `UsernameRequestValidator`: the username chain ending in
      `IsUserNameAvailable`. There is no self-exclusion: a username held by
      ANY account is reported as taken. */
  function UsernameRequestErrors(t: AccountStore.Table, username: string): (r: seq<string>)
    ensures UsernameRequired in r <==> !PassesNotEmpty(username)
    ensures UsernameLength in r <==> !PassesLength(username)
    ensures UsernameAlphanumeric in r <==> !PassesPattern(username)
    ensures UsernameTaken in r <==> exists k | k in t :: t[k] == username
    ensures forall m | m in r :: ChainPosition(m) < 4
    ensures InChainOrder(r)
    ensures r == [] <==> WellFormedUsername(username) && forall k | k in t :: t[k] != username
  {
    UsernameRuleErrors(username, AccountService.IsUserNameAvailable(t, username))
  }

  /** A username the syntax rules accept is between 6 and 30 characters long
      and fits the 100-character `Username` column. */
  lemma WellFormedUsernameFitsColumn(u: string)
    requires WellFormedUsername(u)
    ensures MinUsernameLength <= |u| <= MaxUsernameLength
    ensures AccountStore.FitsUsernameColumn(u)
  {
    PatternAcceptsTrailingLineFeed(u);
    Utf16LengthOfBmp(u);
  }

  /** The syntax rules let a trailing line feed through: seven characters,
      the last not a letter or digit, accepted with no message. */
  lemma TrailingLineFeedPassesSyntaxRules()
    ensures WellFormedUsername("abcdef\n")
    ensures UsernameRuleErrors("abcdef\n", true) == []
    ensures !AllAsciiLettersOrDigits("abcdef\n")
  {
    TrailingLineFeedAccepted();
  }

  /** The intended chain: the pattern anchored with `\z`. */
  function IntendedUsernameRuleErrors(u: string, unique: bool): (r: seq<string>)
    ensures r == [] <==>
              && PassesNotEmpty(u) && PassesLength(u)
              && AllAsciiLettersOrDigits(u) && unique
    ensures r == [] ==> 6 <= |u| <= 30
  {
    AnchoredPatternIsLettersAndDigits(u);
    LettersAndDigitsAreOneUnitEach(u);
    RuleChainErrors(u, MatchesAnchoredLettersAndDigits(u), unique)
  }
}
